=== FILE: README.md ===
# Expense bot core, modelled in Dafny

The bot reads WhatsApp messages from one allowed sender and turns texts such as
"Pan 2 unidades 10" or "Taxi Q12.50" into rows of a Google Sheet: date,
description, amount and category. It also answers three commands: `/ayuda`
for help, `/total` for the running total and `/resumen` for the last five rows.
This project models the deterministic core of `index.js` and proves its
properties.

- `wrappers.dfy` (`Wrappers`) defines the optional value the source expresses as
  `null`, `undefined` or `x || default`.
- `text.dfy` (`Text`) models what the source takes from JavaScript:
  - the `\s`, `\d` and `.` classes of its regular expression;
  - `trim()`, `includes()` and `toLowerCase()`.
- `categorizer.dfy` (`Categorizer`) models `clasificarCategoria` and
  `contienePalabra`. They form a priority chain of substring tests over eight
  keyword lists, with `Otros` as the fallback.
- `local_parser.dfy` (`LocalParser`) models `analizarTextoLocal`:
  - the pattern `^(.+?)\s+Q?(\d+(?:\.\d+)?)` with the `i` flag, written as a
    scanner;
  - predicates that say what the pattern accepts (`TailShape`,
    `ValidSplit`, `ShortestSplit`, `GreedyAmount`);
  - the exact rational that `parseFloat` reads from the captured amount.
- `remote_retry.dfy` (`RemoteRetry`) models the retry loop of `analizarTexto`:
  - the service's reply to each attempt is a parameter;
  - the result is `Parsed`, `Thrown` or `Undefined`, together with the trace of
    requests and pauses.
- `sheet.dfy` (`Sheet`) models `calcularTotalGastos` and the row selection of
  `obtenerResumenUltimosGastos`. Both work over the rows that the sheet read
  returns.
- `handler.dfy` (`Handler`) models the `messages.upsert` listener:
  - it drops messages without a body and the bot's own messages;
  - it refuses other senders;
  - it answers the three exact commands;
  - it passes any other text to the local parser, and to the remote service
    only when the local parser finds nothing.

Outside inputs are parameters, gathered in `Handler.Env`:
- the sheet's rows;
- `parseFloat` of a cell;
- the remote service's reply to each attempt;
- `JSON.parse` of a reply;
- whether the append to the sheet succeeds.

The replies the handler sends are the `Reaction` it returns.

Two inputs that a reader might expect to be refused are accepted by the code:
- an amount of `0`, as in `"Agua 0"` (`LocalParser.ZeroAmountExample`);
- an empty description, as in `"  5"` (`LocalParser.BlankDescriptionExample`).

`isNaN(valor)` never holds, so the `return null` at index.js:21 is
unreachable: the captured amount is always one or more digits
(`LocalParser.ParseLocalAmountNonNegative`).

## Model

| member | source | states |
|---|---|---|
| Text.TrimStrips | index.js:19 | the trimmed description is a slice of the text with only whitespace around it, and it neither starts nor ends with whitespace |
| Text.IsSpace | index.js:15-19 | the `\s` class and the set `trim()` strips: the ECMAScript WhiteSpace and LineTerminator code points; no contract of its own, and `Text.TrimStrips` states what `trim()` does with it |
| Text.Trim | index.js:19 | `trim()`: no contract of its own; `Text.TrimStrips` and `Text.TrimIdempotent` characterise it |
| Text.TrimIdempotent | index.js:19 | trimming an already trimmed text changes nothing |
| Text.IncludesOccurs | index.js:52 | `includes` finds a word exactly when the word occurs at some position of the text |
| Text.Includes | index.js:52 | `includes()`: no contract of its own; `Text.IncludesOccurs` characterises it as an occurrence at some position |
| Text.ToLowerIdempotent | index.js:28 | lower-casing twice gives the same text as lower-casing once |
| Text.ToLower | index.js:28 | `toLowerCase()` keeps the length and maps every character by `LowerChar`, which changes only capitals |
| Text.LowerChar | index.js:28 | `toLowerCase()` of one character: no contract of its own; `Text.LowerCharIdempotent` shows a lower-cased character stays as it is |
| Categorizer.ContainsAny | index.js:51-53 | `contienePalabra` holds exactly when some word of the list is a substring of the text |
| Categorizer.Classify | index.js:27-49 | `clasificarCategoria`: no contract of its own; `Categorizer.ClassifyIsFirstHit`, `Categorizer.ClassifyOtros` and `Categorizer.ClassifyTotal` characterise it |
| Categorizer.ClassifyFrom | index.js:39-48 | the chain of tests from list i on: no contract of its own; `Categorizer.ClassifyFromFirstHit` and `Categorizer.ClassifyFromOtros` characterise it |
| Categorizer.ClassifyIsFirstHit | index.js:39-46 | the text gets category i exactly when list i has a keyword in the lower-cased text and no earlier list does |
| Categorizer.ClassifyOtros | index.js:27-48 | the result is `Otros` exactly when no keyword of any of the eight lists occurs in the lower-cased text |
| Categorizer.ClassifyTotal | index.js:27-49 | every text gets `Otros` or the category of the first list with a hit |
| Categorizer.ClassifyIgnoresCase | index.js:28 | classifying the lower-cased text gives the same category |
| Categorizer.PantalonIsFood | index.js:30-42 | "pantalón" is `Alimentación`: "pan" is checked before the clothing list that holds "pantalón" |
| Categorizer.GimnasioIsHealth | index.js:30-41 | "Gimnasio" has no food or transport keyword and is `Salud` |
| LocalParser.DigitStart | index.js:15 | a position it returns lies after the split and holds a digit; `LocalParser.DigitStartIsTail` shows it is exactly where `\s+Q?\d` puts the digit |
| LocalParser.FindSplit | index.js:15 | a split it returns lies at or after the start and is followed by a digit; `LocalParser.FindSplitShortest` shows it is the shortest valid split |
| LocalParser.DigitStartIsTail | index.js:15 | after a split, the scanner places the first digit exactly where `\s+Q?\d` can put it |
| LocalParser.FindSplitShortest | index.js:15 | the lazy search returns the shortest valid split, and returns nothing exactly when no split is valid |
| LocalParser.ReadAmount | index.js:15 | the amount is the longest digit run, then `.` and the longest digit run when a digit follows the dot |
| LocalParser.ParseLocal | index.js:14-25 | `analizarTextoLocal`: no contract of its own; `LocalParser.ParseLocalMatchesPattern` characterises it |
| LocalParser.ParseLocalMatchesPattern | index.js:14-24 | the parse fails exactly when no split is valid; otherwise the description is the trimmed shortest prefix, the amount is the greedy match and the category is the description's |
| LocalParser.TailUnique | index.js:15 | for a given split the digit can sit at one position only |
| LocalParser.GreedyAmountUnique | index.js:15 | the greedy amount from a given digit is determined by the text |
| LocalParser.ParseLocalExact | index.js:14-24 | once the shortest split, its tail and the greedy amount are known, the result is fixed |
| LocalParser.ParseIgnoresTrailingText | index.js:15-16 | cutting the text at the end of the match leaves the result unchanged |
| LocalParser.DigitsValueBelow | index.js:20 | n digits are worth less than 10^n |
| LocalParser.ValueBounds | index.js:20 | `parseFloat` of the amount is non-negative and lies between the whole part and the next integer |
| LocalParser.Value | index.js:20 | `parseFloat` of the captured amount, as an exact rational: no contract of its own; `LocalParser.ValueBounds` places it between the whole part and the next integer |
| LocalParser.ParseLocalAmountNonNegative | index.js:20-21 | every parsed amount is well formed, so `isNaN` never holds and the value is at least 0 |
| LocalParser.NoDigitNoParse | index.js:15-17 | a text without any digit gives `null` |
| LocalParser.PanExample | index.js:14-24 | "Pan 2 unidades 10" gives ("Pan", 2, `Alimentación`): the description stops at the first number and the rest is ignored |
| LocalParser.TaxiExample | index.js:15-20 | "Taxi Q12.50" gives description "Taxi" and amount 12.50: the `Q` is skipped |
| LocalParser.HeladoExample | index.js:15-23 | "Helado 12." gives amount 12: a dot without a digit after it is not captured |
| LocalParser.BlankDescriptionExample | index.js:15-19 | "  5" is accepted with an empty description |
| LocalParser.ZeroAmountExample | index.js:15-21 | "Agua 0" is accepted with amount 0 |
| LocalParser.GimnasioExample | index.js:14-24 | "Gimnasio 250" gives ("Gimnasio", 250, `Salud`) |
| LocalParser.NoAmountExample | index.js:15-17 | "almorcé con amigos" gives `null` |
| RemoteRetry.Settle | index.js:138-145 | an attempt that is not retried returns a value exactly when the reply arrived and its content parses, the value being the parsed content; otherwise it throws, and it never yields `undefined` |
| RemoteRetry.Attempts | index.js:124-147 | the loop from a given attempt on: no contract of its own; `RemoteRetry.RetryStopsAt` characterises it |
| RemoteRetry.AnalyzeText | index.js:124-147 | `analizarTexto`: no contract of its own; `RemoteRetry.AnalyzeTextSettles`, `RemoteRetry.UndefinedIffNoAttempts` and `RemoteRetry.RequestsBounded` characterise it |
| RemoteRetry.ScheduleFromShape | index.js:124-142 | the trace alternates requests numbered in order with pauses of 3000 ms |
| RemoteRetry.RetryStopsAt | index.js:124-147 | when attempt n is the first that is not rate-limited, or is the last allowed, the result is attempt n's outcome after n requests and n - 1 pauses |
| RemoteRetry.AnalyzeTextSettles | index.js:124-147 | with at least one attempt allowed, some attempt ends the loop and the run is the closed form for it |
| RemoteRetry.UndefinedIffNoAttempts | index.js:124-148 | `undefined` comes back exactly when `intentos` < 1, and then no request is made |
| RemoteRetry.RequestsBounded | index.js:124-142 | at most `intentos` requests, one pause fewer than requests, and every pause is 3000 ms |
| RemoteRetry.FirstReplySettles | index.js:138-145 | a first reply that is not a 429 ends the loop after one request with its parsed content or its error |
| RemoteRetry.RateLimitOnLastAttemptThrows | index.js:140-145 | a 429 on the last attempt is thrown rather than retried |
| RemoteRetry.RetriedTwiceExample | index.js:124-142 | two 429s and then a reply, with three attempts: the reply is returned after three requests and two pauses |
| RemoteRetry.OutOfAttemptsExample | index.js:140-145 | the same replies with two attempts: the second 429 is thrown |
| RemoteRetry.MalformedReplyExample | index.js:138-145 | content that does not parse is thrown at once, without a retry |
| Sheet.RowsOf | index.js:84 | a response without values gives no rows |
| Sheet.SumAmounts | index.js:87-95 | the reference total: no contract of its own; `Sheet.SumAmountsAppend`, `Sheet.SkipsRowWithoutAmount` and `Sheet.AddsRowAmount` characterise it |
| Sheet.CellAmount | index.js:91-92 | `parseFloat(fila[2])` when the row has a third cell: no contract of its own; `Sheet.SkipsRowWithoutAmount` and `Sheet.AddsRowAmount` state what it adds to the total |
| Sheet.CalculateTotal | index.js:87-95 | the loop's total is the sum of the amounts of the rows whose third cell parses |
| Sheet.SumAmountsAppend | index.js:90-93 | the total of two blocks of rows is the sum of their totals |
| Sheet.SkipsRowWithoutAmount | index.js:91-92 | a short row, or one whose third cell is not a number, adds nothing |
| Sheet.AddsRowAmount | index.js:91-92 | a row with an amount adds exactly that amount |
| Sheet.TotalNonNegative | index.js:89-93 | when every amount is non-negative, so is the total |
| Sheet.EmptySheetTotal | index.js:84-95 | a response without values gives a total of 0 |
| Sheet.SliceFrom | index.js:99 | `slice(start)`: a negative start counts from the end and is clamped at 0, and a start past the end gives nothing |
| Sheet.Reverse | index.js:99 | `reverse()`: position i holds the element at position n - 1 - i |
| Sheet.LastRows | index.js:97-99 | a positive count lists the last min(count, n) rows, newest first; a count of 0 lists every row; a negative count drops rows from the start |
| Sheet.SummaryExample | index.js:97-99 | with seven rows and the default of five, the summary lists rows 7 to 3 |
| Handler.CommandOf | index.js:184-202 | a text is a command exactly when it equals "/ayuda", "/total" or "/resumen" |
| Handler.Received | index.js:174 | the message has a body and is not the bot's own: no contract of its own; `Handler.Gatekeeping` characterises it |
| Handler.TextOf | index.js:177 | the text is the `conversation` field when there is one, and the empty text otherwise |
| Handler.LocalEntry | index.js:211 | the fields passed to `registrarGasto` for a local parse: no contract of its own; `Handler.LocalEntryIsRecorded` shows it is what gets recorded |
| Handler.Interpret | index.js:205-210 | the two tiers: no contract of its own; `Handler.LocalParseRecorded` gives its result when the local parse succeeds, `Handler.RemoteTierResult` when it fails, and `Handler.RemoteOnlyWhenLocalFails` its trace |
| Handler.HandleMessage | index.js:174-218 | one message: no contract of its own; `Handler.Gatekeeping`, `Handler.CommandsAreExact` and `Handler.CommandReplies` cover the refusals and commands, and `Handler.LocalEntryIsRecorded` and `Handler.RemoteEntryIsRecorded` give the exact reaction to every other text |
| Handler.HandleUpsert | index.js:172-173 | only the first message of a batch is handled, and an empty batch makes the listener throw |
| Handler.Gatekeeping | index.js:174-182 | a message is ignored exactly when it has no body or is the bot's own, and refused exactly when its sender is not on the list |
| Handler.CommandsAreExact | index.js:184-205 | an allowed sender gets each command reply exactly for its command text; any other text, even one starting with '/', is interpreted as an expense |
| Handler.CommandWithArgumentIsText | index.js:184-205 | "/total 5" is not a command, so it goes to the parser |
| Handler.CommandReplies | index.js:191-201 | `/total` replies with the sheet's total, and `/resumen` with the last five rows, newest first |
| Handler.RemoteOnlyWhenLocalFails | index.js:206-210 | the remote service is asked exactly when the local parse returns `null`, and at most three times |
| Handler.LocalParseRecorded | index.js:206-210 | a local parse is the interpretation as is: its description, the value of its amount and its category label, with no remote request |
| Handler.RecordedIffEntryAndAppend | index.js:205-218 | with three attempts the remote tier never returns `undefined`; an expense is recorded exactly when a tier produced it and the append succeeded, and the error reply is sent otherwise |
| Handler.RemoteTierResult | index.js:206-209 | when the local parse is `null`, the interpretation is the outcome of the attempt that ends the retry loop, with that loop's schedule of requests and pauses as the trace |
| Handler.LocalEntryIsRecorded | index.js:205-218 | a text the local parser understands never reaches the remote service: it is recorded with exactly its local entry when the append succeeds, and otherwise gets the error reply, with an empty remote trace either way |
| Handler.RemoteEntryIsRecorded | index.js:205-218 | a text the local parser does not understand is recorded with exactly the entry the retry loop settles on when it parsed and the append succeeds, and otherwise gets the error reply; either way the trace is the loop's schedule |
| Handler.GimnasioRecorded | index.js:172-212 | "Gimnasio 250" from the owner is recorded as a `Salud` expense of 250 without a remote request |
| Handler.NoNumberAsksRemote | index.js:206-209 | a text with no number goes to the remote service |

## Left out

- The WhatsApp socket is left out because it is transport I/O. This covers the QR display, reconnection and credential saving (index.js:151-170). `sendMessage` is left out as well; the reply becomes the returned `Reaction`. A failure of `sendMessage` is not modelled: if the success reply (index.js:212) throws, the catch block sends the error reply after the row was already appended, and `Reaction` cannot express that.
- Sheets authentication, the append call and the read call are left out because they are foreign I/O. Their results are parameters: the rows read and whether the append succeeds. The date that `registrarGasto` writes comes from the clock and is not modelled.
- The service call is left out because it is network I/O. The model also leaves out its prompt text, its wire format and the real `setTimeout`. Instead, the reply to each attempt is a parameter, and a pause is a `Delay` event in the trace.
- `JSON.parse` of the reply is a parameter. The model does not check what the parsed object contains. The remote category is never validated against the nine labels, and a parsed `null` would throw a `TypeError` on `datos.descripcion`. Both are outside the model.
- Floating point is left out. `parseFloat` of the captured amount is the exact rational. `parseFloat` of a sheet cell is a parameter, and the total is a sum of reals, so rounding is not modelled.
- Text.LowerChar: `toLowerCase` is modelled only for ASCII letters and the Latin-1 capitals U+00C0 to U+00DE. Every other character is left unchanged, because full Unicode case mapping needs tables outside this model. All the keywords are already in lower case.
- Strings are sequences of code points, not UTF-16 units. Characters outside the Basic Multilingual Plane therefore count as one character here.
- Locale formatting is left out: `toLocaleString`, `toLocaleDateString` and the text of the replies, including the emoji.
- Console logging is left out.
- A failed read of the sheet during `/total` or `/resumen` is left out. The source does not catch it, so the listener's promise is rejected.

=== FILE: categorizer.dfy ===
/** The keyword categoriser of index.js (`clasificarCategoria` and
    `contienePalabra`): a fixed priority chain of substring tests over
    eight keyword lists, with `Otros` as the fallback. */
module Categorizer {
  import opened Text

  /** The nine categories a description can receive. */
  datatype Category =
    | Alimentacion | Transporte | Salud | Vestimenta | Entretenimiento
    | Educacion | Servicios | Hogar | Otros
  {
    /** The label the source returns (and writes to the sheet). */
    function Label(): string {
      match this
      case Alimentacion => "Alimentación"
      case Transporte => "Transporte"
      case Salud => "Salud"
      case Vestimenta => "Vestimenta"
      case Entretenimiento => "Entretenimiento"
      case Educacion => "Educación"
      case Servicios => "Servicios"
      case Hogar => "Hogar"
      case Otros => "Otros"
    }
  }

  const FoodWords: seq<string> :=
    ["comida", "almuerzo", "cena", "restaurante", "fresas", "helado", "chocobanano", "pan",
     "tamal", "bebida", "refresco", "snack", "hamburguesa", "pollo", "pizza"]
  const TransportWords: seq<string> := ["uber", "gas", "bus", "taxi", "combustible", "pasaje"]
  const HealthWords: seq<string> := ["doctor", "medicina", "farmacia", "gimnasio", "dentista"]
  const ClothingWords: seq<string> := ["ropa", "zapato", "camisa", "pantalón"]
  const EntertainmentWords: seq<string> := ["cine", "netflix", "spotify", "juego", "película"]
  const EducationWords: seq<string> := ["libro", "colegiatura", "curso", "escuela", "universidad"]
  const UtilityWords: seq<string> := ["agua", "luz", "internet", "saldo", "teléfono", "electricidad"]
  const HomeWords: seq<string> := ["renta", "alquiler", "despensa", "mueble", "silla", "colchón"]

  /** The categories with keyword lists, in the order the chain checks them. */
  const Ranked: seq<Category> :=
    [Alimentacion, Transporte, Salud, Vestimenta, Entretenimiento, Educacion, Servicios, Hogar]

  /** The keyword list of each category; `Otros` has none. */
  function Keywords(c: Category): seq<string> {
    match c
    case Alimentacion => FoodWords
    case Transporte => TransportWords
    case Salud => HealthWords
    case Vestimenta => ClothingWords
    case Entretenimiento => EntertainmentWords
    case Educacion => EducationWords
    case Servicios => UtilityWords
    case Hogar => HomeWords
    case Otros => []
  }

  /** `contienePalabra`: some word of the list is a substring of `text`. */
  function ContainsAny(text: string, words: seq<string>): (r: bool)
    ensures r <==> exists i :: 0 <= i < |words| && Includes(text, words[i])
  {
    if words == [] then false
    else Includes(text, words[0]) || ContainsAny(text, words[1..])
  }

  /** The chain from list `i` on: the category of the first list, from `i`
      onwards, that has a keyword in `lower`, else `Otros`. */
  function ClassifyFrom(lower: string, i: nat): Category
    requires i <= |Ranked|
    decreases |Ranked| - i
  {
    if i == |Ranked| then Otros
    else if ContainsAny(lower, Keywords(Ranked[i])) then Ranked[i]
    else ClassifyFrom(lower, i + 1)
  }

  /** `clasificarCategoria`: lower-case the text, then run the chain of the
      eight `if (contienePalabra(lower, ...))` tests in source order. */
  function Classify(text: string): Category {
    ClassifyFrom(ToLower(text), 0)
  }

  /** Reference definition: some keyword of list `i` occurs somewhere in `lower`. */
  ghost predicate Hit(lower: string, i: int) {
    0 <= i < |Ranked| &&
    exists w, j :: w in Keywords(Ranked[i]) && OccursAt(lower, w, j)
  }

  /** List `i` is the first list with a hit. */
  ghost predicate FirstHit(lower: string, i: int) {
    Hit(lower, i) && forall k :: 0 <= k < i ==> !Hit(lower, k)
  }

  /** No keyword of any of the eight lists occurs in `lower`. */
  ghost predicate NoHit(lower: string) {
    forall i :: 0 <= i < |Ranked| ==> !Hit(lower, i)
  }

  lemma ContainsAnyIsHit(lower: string, i: int)
    requires 0 <= i < |Ranked|
    ensures ContainsAny(lower, Keywords(Ranked[i])) <==> Hit(lower, i)
  {
    var words := Keywords(Ranked[i]);
    if ContainsAny(lower, words) {
      var m :| 0 <= m < |words| && Includes(lower, words[m]);
      IncludesOccurs(lower, words[m]);
      var j :| OccursAt(lower, words[m], j);
      assert words[m] in words;
    }
    if Hit(lower, i) {
      var w, j :| w in words && OccursAt(lower, w, j);
      var m :| 0 <= m < |words| && words[m] == w;
      IncludesOccurs(lower, words[m]);
    }
  }

  lemma RankedDistinct()
    ensures forall a, b :: 0 <= a < b < |Ranked| ==> Ranked[a] != Ranked[b]
    ensures Otros !in Ranked
  {
  }

  /** The chain from list `from` on yields `Ranked[i]` exactly when list `i`
      is the first list from `from` onwards with a hit. */
  lemma {:induction false} ClassifyFromFirstHit(lower: string, from: nat, i: int)
    requires from <= i < |Ranked|
    ensures ClassifyFrom(lower, from) == Ranked[i]
            <==> Hit(lower, i) && forall k :: from <= k < i ==> !Hit(lower, k)
    decreases |Ranked| - from
  {
    RankedDistinct();
    ContainsAnyIsHit(lower, from);
    if from < i {
      ClassifyFromFirstHit(lower, from + 1, i);
      if ContainsAny(lower, Keywords(Ranked[from])) {
        assert Ranked[from] != Ranked[i];
      }
    } else {
      ClassifyFromRange(lower, from + 1);
    }
  }

  /** The chain from list `from` on falls through to `Otros` exactly when no
      list from `from` onwards has a hit. */
  lemma {:induction false} ClassifyFromOtros(lower: string, from: nat)
    requires from <= |Ranked|
    ensures ClassifyFrom(lower, from) == Otros
            <==> forall k :: from <= k < |Ranked| ==> !Hit(lower, k)
    ensures from == 0 ==> (ClassifyFrom(lower, from) == Otros <==> NoHit(lower))
    decreases |Ranked| - from
  {
    RankedDistinct();
    if from < |Ranked| {
      ContainsAnyIsHit(lower, from);
      ClassifyFromOtros(lower, from + 1);
      assert Ranked[from] in Ranked;
    }
  }

  /** The priority chain: the text is classified as `Ranked[i]` exactly when
      list `i` is the first of the eight lists with a hit. */
  lemma ClassifyIsFirstHit(text: string, i: int)
    requires 0 <= i < |Ranked|
    ensures Classify(text) == Ranked[i] <==> FirstHit(ToLower(text), i)
  {
    ClassifyFromFirstHit(ToLower(text), 0, i);
  }

  /** The fallback: `Otros` exactly when no keyword of any list occurs. */
  lemma ClassifyOtros(text: string)
    ensures Classify(text) == Otros <==> NoHit(ToLower(text))
  {
    ClassifyFromOtros(ToLower(text), 0);
  }

  /** Every result of the chain is `Otros` or one of the eight ranked categories. */
  lemma {:induction false} ClassifyFromRange(lower: string, from: nat)
    requires from <= |Ranked|
    ensures ClassifyFrom(lower, from) == Otros || ClassifyFrom(lower, from) in Ranked[from..]
    decreases |Ranked| - from
  {
    if from < |Ranked| {
      ClassifyFromRange(lower, from + 1);
    }
  }

  /** Totality: every text receives `Otros` or the category of the first
      list with a hit. */
  lemma ClassifyTotal(text: string)
    ensures Classify(text) == Otros
            || exists i :: 0 <= i < |Ranked| && Ranked[i] == Classify(text) && FirstHit(ToLower(text), i)
  {
    ClassifyFromRange(ToLower(text), 0);
    if Classify(text) != Otros {
      var i :| 0 <= i < |Ranked| && Ranked[i] == Classify(text);
      ClassifyIsFirstHit(text, i);
    }
  }

  /** Case does not matter: classifying the lower-cased text gives the same category. */
  lemma ClassifyIgnoresCase(text: string)
    ensures Classify(ToLower(text)) == Classify(text)
  {
    ToLowerIdempotent(text);
  }

  /** "pantalón" contains the food keyword "pan", which the chain checks before the
      clothing list that holds "pantalón" itself. */
  lemma PantalonIsFood()
    ensures Classify("pantalón") == Alimentacion
    ensures ContainsAny("pantalón", ClothingWords)
  {
    assert OccursAt(ToLower("pantalón"), "pan", 0);
    assert FoodWords[7] == "pan";
    assert ClothingWords[3] == "pantalón";
    assert OccursAt("pantalón", "pantalón", 0);
  }

  lemma GimnasioLower()
    ensures ToLower("Gimnasio") == "gimnasio"
  {
  }

  lemma GimnasioNoFoodWord()
    ensures !ContainsAny("gimnasio", FoodWords)
  {
    assert forall i :: 0 <= i < 8 ==> !Includes("gimnasio", FoodWords[i]);
    assert forall i :: 8 <= i < |FoodWords| ==> !Includes("gimnasio", FoodWords[i]);
  }

  lemma GimnasioNoTransportWord()
    ensures !ContainsAny("gimnasio", TransportWords)
  {
    assert forall w :: w in TransportWords ==> !Includes("gimnasio", w);
  }

  lemma GimnasioHealthWord()
    ensures ContainsAny("gimnasio", HealthWords)
  {
    assert OccursAt("gimnasio", "gimnasio", 0);
    IncludesOccurs("gimnasio", HealthWords[3]);
  }

  /** "Gimnasio" has no food or transport keyword and contains the health
      keyword "gimnasio". */
  lemma GimnasioIsHealth()
    ensures Classify("Gimnasio") == Salud
  {
    GimnasioLower();
    GimnasioNoFoodWord();
    GimnasioNoTransportWord();
    GimnasioHealthWord();
    assert Keywords(Ranked[0]) == FoodWords && Keywords(Ranked[1]) == TransportWords
           && Keywords(Ranked[2]) == HealthWords;
  }
}

=== FILE: handler.dfy ===
/** The `messages.upsert` handler of index.js: which incoming messages are
    ignored, which senders are refused, the three commands, and the two-tier
    interpretation of everything else (the local parser first, the remote
    service only when it finds nothing), ending in a recorded expense or an
    error reply.

    What the handler reads from the outside world is gathered in `Env`; the
    replies it sends are the `Reaction` it returns. */
module Handler {
  import opened Wrappers
  import opened Categorizer
  import opened LocalParser
  import opened RemoteRetry
  import opened Sheet

  datatype Key = Key(remoteJid: string, fromMe: bool)

  /** The message body; only its plain `conversation` text is read. */
  datatype Body = Body(conversation: Option<string>)

  datatype Message = Message(key: Key, message: Option<Body>)

  /** The one sender the bot answers (`numerosAutorizados`). */
  const Owner := "50239190651@s.whatsapp.net"
  const Authorized: seq<string> := [Owner]

  /** The row `registrarGasto` appends: description, value and category
      label (the date is the clock's and is left out). */
  datatype Entry = Entry(description: string, value: real, category: string)

  /** What the handler reads: the sheet's rows, `parseFloat` of a cell, the
      remote service's reply to each attempt, `JSON.parse` of a reply into
      an entry, and whether appending to the sheet succeeds. */
  datatype Env = Env(sheet: Option<seq<Row>>, parseNumber: string -> Option<real>,
                     respond: nat -> Outcome, parseReply: string -> Option<Entry>,
                     appendSucceeds: bool)

  datatype Command = Help | Total | Summary

  /** What the handler does with one batch: `Crash` when the batch is empty
      and `messages[0].message` throws; `Ignored` and `Unauthorized` return
      without a reply; the rest are the replies sent. `remote` is the trace
      of requests to the remote service, empty when the local parser
      understood the text. */
  datatype Reaction =
    | Crash
    | Ignored
    | Unauthorized(sender: string)
    | ShowHelp
    | ShowTotal(total: real)
    | ShowSummary(rows: seq<Row>)
    | Recorded(entry: Entry, remote: seq<Event>)
    | NotRecorded(remote: seq<Event>)

  /** The three commands, recognised only by exact comparison after the
      `startsWith('/')` test. */
  function CommandOf(text: string): (r: Option<Command>)
    ensures r == Some(Help) <==> text == "/ayuda"
    ensures r == Some(Total) <==> text == "/total"
    ensures r == Some(Summary) <==> text == "/resumen"
  {
    if |text| > 0 && text[0] == '/' then
      if text == "/ayuda" then Some(Help)
      else if text == "/total" then Some(Total)
      else if text == "/resumen" then Some(Summary)
      else None
    else
      None
  }

  /** The entry of a local parse: `parseFloat` of the amount and the label of
      the category. */
  function LocalEntry(e: Expense): Entry
    requires WellFormed(e.amount)
  {
    Entry(e.description, Value(e.amount), e.category.Label())
  }

  /** The two tiers: the local parse, and when it returns `null` the remote
      service with its default number of attempts. */
  function Interpret(text: string, env: Env): (r: (Result<Entry>, seq<Event>)) {
    match ParseLocal(text)
    case Some(e) =>
      ParseLocalAmountNonNegative(text);
      (Parsed(LocalEntry(e)), [])
    case None =>
      var run := AnalyzeText(DefaultAttempts, env.respond, env.parseReply);
      (run.result, run.trace)
  }

  /** The message is handled at all: it has a body and was not sent by the
      bot itself. */
  predicate Received(m: Message) {
    m.message.Some? && !m.key.fromMe
  }

  /** `m.message.conversation || ''`. */
  function TextOf(m: Message): (text: string)
    requires m.message.Some?
    ensures m.message.value.conversation.Some? ==> text == m.message.value.conversation.value
    ensures m.message.value.conversation.None? ==> text == ""
  {
    m.message.value.conversation.GetOr("")
  }

  /** The handler for one message. */
  function HandleMessage(m: Message, env: Env): Reaction {
    if !Received(m) then Ignored
    else if m.key.remoteJid !in Authorized then Unauthorized(m.key.remoteJid)
    else
      match CommandOf(TextOf(m))
      case Some(Help) => ShowHelp
      case Some(Total) => ShowTotal(SumAmounts(RowsOf(env.sheet), env.parseNumber))
      case Some(Summary) => ShowSummary(LastRows(RowsOf(env.sheet), DefaultSummaryRows))
      case None =>
        var (result, trace) := Interpret(TextOf(m), env);
        if result.Parsed? && env.appendSucceeds then Recorded(result.value, trace)
        else NotRecorded(trace)
  }

  /** The `messages.upsert` listener: only the first message of the batch is
      looked at, and an empty batch makes the listener throw. */
  function HandleUpsert(messages: seq<Message>, env: Env): (r: Reaction)
    ensures r == Crash <==> messages == []
    ensures messages != [] ==> r == HandleMessage(messages[0], env)
  {
    if messages == [] then Crash else HandleMessage(messages[0], env)
  }

  // ---------------------------------------------------------------------
  // Routing

  /** Messages without a body and the bot's own messages get no reaction;
      every other message from a sender off the list is refused; nothing
      else is refused. */
  lemma Gatekeeping(m: Message, env: Env)
    ensures HandleMessage(m, env) == Ignored <==> m.message.None? || m.key.fromMe
    ensures HandleMessage(m, env).Unauthorized?
            <==> Received(m) && m.key.remoteJid !in Authorized
  {
  }

  /** A text is a command exactly when it is one of the three command
      words, letter for letter; anything else from an allowed sender, even
      text starting with `/`, goes to the parser. */
  lemma CommandsAreExact(m: Message, env: Env)
    requires Received(m) && m.key.remoteJid in Authorized
    ensures HandleMessage(m, env) == ShowHelp <==> TextOf(m) == "/ayuda"
    ensures HandleMessage(m, env).ShowTotal? <==> TextOf(m) == "/total"
    ensures HandleMessage(m, env).ShowSummary? <==> TextOf(m) == "/resumen"
    ensures TextOf(m) !in ["/ayuda", "/total", "/resumen"]
            ==> HandleMessage(m, env).Recorded? || HandleMessage(m, env).NotRecorded?
  {
  }

  /** `/total` replies with the sum of the readable amounts of the sheet, and
      `/resumen` with the last five rows, newest first. */
  lemma CommandReplies(m: Message, env: Env)
    requires Received(m) && m.key.remoteJid in Authorized
    ensures TextOf(m) == "/total" ==>
              HandleMessage(m, env) == ShowTotal(SumAmounts(RowsOf(env.sheet), env.parseNumber))
    ensures TextOf(m) == "/resumen" ==>
              HandleMessage(m, env).rows == LastRows(RowsOf(env.sheet), DefaultSummaryRows)
  {
  }

  /** The remote service is asked exactly when the local parser finds
      nothing, and then it is asked at most three times. */
  lemma RemoteOnlyWhenLocalFails(text: string, env: Env)
    ensures Interpret(text, env).1 != [] <==> ParseLocal(text).None?
    ensures RequestCount(Interpret(text, env).1) <= DefaultAttempts
  {
    if ParseLocal(text).None? {
      var n := FindStop(env.respond, DefaultAttempts, 1);
      RetryStopsAt(DefaultAttempts, env.respond, env.parseReply, n);
      RequestsBounded(DefaultAttempts, env.respond, env.parseReply);
    }
  }

  /** A local parse is recorded as is: its description, the value of its
      amount and the label of its category, with no remote request. */
  lemma LocalParseRecorded(text: string, env: Env)
    requires ParseLocal(text).Some?
    ensures WellFormed(ParseLocal(text).value.amount)
    ensures Interpret(text, env) == (Parsed(LocalEntry(ParseLocal(text).value)), [])
  {
    ParseLocalAmountNonNegative(text);
  }

  /** With the default of three attempts the remote tier never yields
      `undefined`, so a message that is not a command is recorded exactly
      when some tier produced an entry and the append succeeded, and is
      otherwise answered with the error reply. */
  lemma RecordedIffEntryAndAppend(m: Message, env: Env)
    requires Received(m) && m.key.remoteJid in Authorized && CommandOf(TextOf(m)).None?
    ensures !Interpret(TextOf(m), env).0.Undefined?
    ensures HandleMessage(m, env).Recorded?
            <==> Interpret(TextOf(m), env).0.Parsed? && env.appendSucceeds
    ensures HandleMessage(m, env).NotRecorded?
            <==> Interpret(TextOf(m), env).0.Thrown? || !env.appendSucceeds
  {
    UndefinedIffNoAttempts(DefaultAttempts, env.respond, env.parseReply);
  }

  /** When the local parser finds nothing, the interpretation is exactly the
      run of the retry loop: the settled outcome of the attempt that ends it,
      after its schedule of requests and pauses. */
  lemma RemoteTierResult(text: string, env: Env)
    requires ParseLocal(text).None?
    ensures exists n :: StopsAt(env.respond, DefaultAttempts, n)
                        && Interpret(text, env) == (Settle(env.respond(n), env.parseReply), Schedule(n))
  {
    AnalyzeTextSettles(DefaultAttempts, env.respond, env.parseReply);
  }

  /** A message the local parser understands never reaches the remote
      service: it is recorded with the local entry when the append
      succeeds, and otherwise gets the error reply. */
  lemma LocalEntryIsRecorded(m: Message, env: Env)
    requires Received(m) && m.key.remoteJid in Authorized && CommandOf(TextOf(m)).None?
    requires ParseLocal(TextOf(m)).Some?
    ensures WellFormed(ParseLocal(TextOf(m)).value.amount)
    ensures HandleMessage(m, env)
            == if env.appendSucceeds then Recorded(LocalEntry(ParseLocal(TextOf(m)).value), [])
               else NotRecorded([])
  {
    LocalParseRecorded(TextOf(m), env);
  }

  /** A message the local parser does not understand gets what the retry
      loop settles on: the parsed entry is recorded when the append
      succeeds, and otherwise the error reply is sent; either way the
      trace is the loop's schedule. */
  lemma RemoteEntryIsRecorded(m: Message, env: Env)
    requires Received(m) && m.key.remoteJid in Authorized && CommandOf(TextOf(m)).None?
    requires ParseLocal(TextOf(m)).None?
    ensures exists n :: StopsAt(env.respond, DefaultAttempts, n)
              && (var r := Settle(env.respond(n), env.parseReply);
                  HandleMessage(m, env)
                  == if r.Parsed? && env.appendSucceeds then Recorded(r.value, Schedule(n))
                     else NotRecorded(Schedule(n)))
  {
    RemoteTierResult(TextOf(m), env);
  }

  // ---------------------------------------------------------------------
  // End to end

  /** A plain text message from the owner. */
  function TextMessage(text: string): Message {
    Message(Key(Owner, false), Some(Body(Some(text))))
  }

  /** "Gimnasio 250" from the owner is recorded as a health expense of 250
      without asking the remote service. */
  lemma GimnasioRecorded(env: Env)
    requires env.appendSucceeds
    ensures HandleUpsert([TextMessage(GimnasioText)], env)
            == Recorded(Entry("Gimnasio", 250.0, "Salud"), [])
  {
    var m := TextMessage(GimnasioText);
    assert Received(m) && m.key.remoteJid in Authorized && TextOf(m) == GimnasioText;
    GimnasioIsNotCommand();
    GimnasioInterpreted(env);
  }

  lemma GimnasioIsNotCommand()
    ensures CommandOf(GimnasioText) == None
  {
  }

  lemma GimnasioInterpreted(env: Env)
    ensures Interpret(GimnasioText, env) == (Parsed(Entry("Gimnasio", 250.0, "Salud")), [])
  {
    GimnasioExample();
    LocalParseRecorded(GimnasioText, env);
    GimnasioEntry();
  }

  lemma GimnasioEntry()
    ensures WellFormed(Amount("250", ""))
    ensures LocalEntry(Expense("Gimnasio", Amount("250", ""), Salud)) == Entry("Gimnasio", 250.0, "Salud")
  {
    GimnasioAmount();
  }

  /** A text with no number goes to the remote service. */
  lemma NoNumberAsksRemote(env: Env)
    ensures Interpret("almorcé con amigos", env).1 != []
  {
    NoAmountExample();
    RemoteOnlyWhenLocalFails("almorcé con amigos", env);
  }

  /** A command word with anything after it is not a command. */
  lemma CommandWithArgumentIsText()
    ensures CommandOf("/total 5") == None
  {
  }
}

=== FILE: local_parser.dfy ===
/** The local parser of index.js (`analizarTextoLocal`): the regular
    expression `^(.+?)\s+Q?(\d+(?:\.\d+)?)` with the `i` flag, written out as
    a scanner, followed by `trim()` of the description and classification.

    The predicates `TailShape`, `ValidSplit` and `GreedyAmount` say what
    the pattern accepts; the functions below compute it, and their contracts
    connect the two. */
module LocalParser {
  import opened Wrappers
  import opened Text
  import opened Categorizer

  /** `Q?` under the `i` flag matches `Q` and `q`. */
  predicate IsCurrencyMark(c: char) {
    c == 'Q' || c == 'q'
  }

  /** The amount exactly as written: the whole digits and the fraction
      digits (empty when there is no `.digits` part). */
  datatype Amount = Amount(whole: string, fraction: string)

  /** The record `{ descripcion, valor, categoria }` of a local parse. */
  datatype Expense = Expense(description: string, amount: Amount, category: Category)

  // ---------------------------------------------------------------------
  // What the pattern accepts

  /** After the lazy group ends at `k`, the tail `\s+Q?` places the first
      digit of the amount at `p`. */
  ghost predicate TailShape(s: string, k: int, p: int) {
    0 <= k < p < |s| && IsDigit(s[p]) &&
    (AllSpace(s[k..p]) || (k + 1 < p && IsCurrencyMark(s[p - 1]) && AllSpace(s[k..p - 1])))
  }

  /** `(.+?)` can end at `k`: the first `k` characters are one or more
      non-line-terminators, and the rest of the pattern matches from `k`. */
  ghost predicate ValidSplit(s: string, k: int) {
    1 <= k <= |s| && NoLineTerminator(s[..k]) && exists p :: TailShape(s, k, p)
  }

  /** `k` is a valid split and none of `from`, ..., `k - 1` is. */
  ghost predicate ShortestFrom(s: string, from: int, k: int) {
    ValidSplit(s, k) && forall k' :: from <= k' < k ==> !ValidSplit(s, k')
  }

  /** The lazy quantifier stops at the first `k` that works. */
  ghost predicate ShortestSplit(s: string, k: int) {
    ShortestFrom(s, 1, k)
  }

  /** `a` is what the greedy `\d+(?:\.\d+)?` captures from `p`, and the match
      ends at `e`: the longest digit run, then `.` and the longest digit run
      when a digit follows the dot. */
  predicate GreedyAmount(s: string, p: int, a: Amount, e: int) {
    var w := p + |a.whole|;
    && 0 <= p && 0 < |a.whole| && w <= |s| && s[p..w] == a.whole && AllDigits(a.whole)
    && (w == |s| || !IsDigit(s[w]))
    && if a.fraction == [] then
         e == w && !(w + 1 < |s| && s[w] == '.' && IsDigit(s[w + 1]))
       else
         && e == w + 1 + |a.fraction| && e <= |s| && s[w] == '.'
         && s[w + 1..e] == a.fraction && AllDigits(a.fraction)
         && (e == |s| || !IsDigit(s[e]))
  }

  // ---------------------------------------------------------------------
  // The scanner

  /** Where the tail `\s+Q?` puts the first digit when the lazy group ends
      at `k`: the greedy `\s+` and `Q?`, then one digit. */
  function DigitStart(s: string, k: nat): (r: Option<nat>)
    ensures r.Some? ==> k < r.value < |s| && IsDigit(s[r.value])
  {
    if k < |s| && IsSpace(s[k]) then
      var j := SkipSpaces(s, k);
      if j < |s| && IsDigit(s[j]) then Some(j)
      else if j + 1 < |s| && IsCurrencyMark(s[j]) && IsDigit(s[j + 1]) then Some(j + 1)
      else None
    else
      None
  }

  /** The scanner's digit position is exactly the one the tail pattern allows. */
  lemma DigitStartIsTail(s: string, k: nat)
    ensures forall p :: DigitStart(s, k) == Some(p) <==> TailShape(s, k, p)
  {
    if k < |s| && IsSpace(s[k]) {
      var j := SkipSpaces(s, k);
      if j < |s| && IsDigit(s[j]) {
        TailFromSpaces(s, k, j, j);
      } else if j + 1 < |s| && IsCurrencyMark(s[j]) && IsDigit(s[j + 1]) {
        TailFromSpaces(s, k, j, j + 1);
      } else {
        TailFromSpaces(s, k, j, -1);
      }
    }
  }

  /** With `j` the end of the longest whitespace run from `k`, the digit can
      only sit at `j` or, after a currency mark, at `j + 1`. */
  lemma TailFromSpaces(s: string, k: nat, j: nat, p0: int)
    requires k < j <= |s|
    requires forall m :: k <= m < j ==> IsSpace(s[m])
    requires j == |s| || !IsSpace(s[j])
    requires p0 == j ==> j < |s| && IsDigit(s[j])
    requires p0 == j + 1 ==> j + 1 < |s| && IsCurrencyMark(s[j]) && IsDigit(s[j + 1])
    requires p0 != j && p0 != j + 1 ==>
               !(j < |s| && IsDigit(s[j])) && !(j + 1 < |s| && IsCurrencyMark(s[j]) && IsDigit(s[j + 1]))
    ensures forall p :: TailShape(s, k, p) ==> p == p0
    ensures p0 == j || p0 == j + 1 ==> TailShape(s, k, p0)
  {
    forall p | TailShape(s, k, p)
      ensures p == p0
    {
      if AllSpace(s[k..p]) {
        if p < j {
          assert IsSpace(s[p]);
        }
      } else {
        if p - 1 < j {
          assert IsSpace(s[p - 1]);
        }
      }
    }
    if p0 == j {
      assert AllSpace(s[k..j]);
      assert TailShape(s, k, j);
    } else if p0 == j + 1 {
      assert AllSpace(s[k..j]);
      assert TailShape(s, k, j + 1);
    }
  }

  /** No split at or after a line terminator can work, since `.` refuses it. */
  lemma NoSplitAfterLineTerminator(s: string, i: nat)
    requires i < |s| && IsLineTerminator(s[i])
    ensures forall k :: i < k ==> !ValidSplit(s, k)
  {
    forall k | i < k <= |s|
      ensures !NoLineTerminator(s[..k])
    {
      assert s[..k][i] == s[i];
    }
  }

  /** The lazy search: tries `k`, `k + 1`, ... and stops at the first split
      whose tail matches, or at the first line terminator. */
  function FindSplit(s: string, k: nat): (r: Option<(nat, nat)>)
    requires 1 <= k <= |s|
    ensures r.Some? ==> k <= r.value.0 < r.value.1 < |s| && IsDigit(s[r.value.1])
    decreases |s| - k
  {
    if IsLineTerminator(s[k - 1]) then None
    else
      match DigitStart(s, k)
      case Some(p) => Some((k, p))
      case None => if k == |s| then None else FindSplit(s, k + 1)
  }

  /** The search from `k` finds the shortest valid split at or after `k`,
      and finds nothing exactly when there is none. */
  lemma {:induction false} FindSplitShortest(s: string, k: nat)
    requires 1 <= k <= |s|
    requires NoLineTerminator(s[..k - 1])
    ensures FindSplit(s, k).None? ==> forall k' :: k <= k' ==> !ValidSplit(s, k')
    ensures FindSplit(s, k).Some? ==>
              var (k', p) := FindSplit(s, k).value;
              k <= k' && ShortestFrom(s, k, k') && TailShape(s, k', p)
    decreases |s| - k
  {
    DigitStartIsTail(s, k);
    if IsLineTerminator(s[k - 1]) {
      NoSplitAfterLineTerminator(s, k - 1);
    } else {
      assert s[..k] == s[..k - 1] + [s[k - 1]];
      if DigitStart(s, k).None? && k < |s| {
        FindSplitShortest(s, k + 1);
      }
    }
  }

  /** The greedy amount from the digit at `p`; returns it and the end of the match. */
  function ReadAmount(s: string, p: nat): (r: (Amount, nat))
    requires p < |s| && IsDigit(s[p])
    ensures GreedyAmount(s, p, r.0, r.1)
  {
    var w := SkipDigits(s, p);
    assert AllDigits(s[p..w]);
    if w + 1 < |s| && s[w] == '.' && IsDigit(s[w + 1]) then
      var e := SkipDigits(s, w + 1);
      assert AllDigits(s[w + 1..e]);
      (Amount(s[p..w], s[w + 1..e]), e)
    else
      (Amount(s[p..w], []), w)
  }

  // ---------------------------------------------------------------------
  // The number `parseFloat` reads from the captured amount

  /** The captured amount is one or more digits, then optional fraction digits. */
  predicate WellFormed(a: Amount) {
    0 < |a.whole| && AllDigits(a.whole) && AllDigits(a.fraction)
  }

  function DigitValue(c: char): nat
    requires IsDigit(c)
  {
    c as int - '0' as int
  }

  /** The value of a digit string read in base ten. */
  function DigitsValue(d: string): nat
    requires AllDigits(d)
  {
    if d == [] then 0 else 10 * DigitsValue(d[..|d| - 1]) + DigitValue(d[|d| - 1])
  }

  function Pow10(n: nat): (r: nat)
    ensures r >= 1
  {
    if n == 0 then 1 else 10 * Pow10(n - 1)
  }

  /** `parseFloat` of the captured text, as an exact rational: the whole
      digits plus the fraction digits scaled down by their count. */
  function Value(a: Amount): real
    requires WellFormed(a)
  {
    DigitsValue(a.whole) as real + DigitsValue(a.fraction) as real / Pow10(|a.fraction|) as real
  }

  /** `n` digits are worth less than `10^n`. */
  lemma {:induction false} DigitsValueBelow(d: string)
    requires AllDigits(d)
    ensures DigitsValue(d) < Pow10(|d|)
  {
    if d != [] {
      var init := d[..|d| - 1];
      assert AllDigits(init);
      DigitsValueBelow(init);
      assert |init| == |d| - 1;
    }
  }

  /** The amount is never negative, and the fraction never reaches a whole
      unit: the value lies between the whole part and the next integer. */
  lemma ValueBounds(a: Amount)
    requires WellFormed(a)
    ensures 0.0 <= DigitsValue(a.whole) as real <= Value(a) < DigitsValue(a.whole) as real + 1.0
  {
    DigitsValueBelow(a.fraction);
    FractionBelowOne(DigitsValue(a.fraction) as real, Pow10(|a.fraction|) as real);
  }

  lemma FractionBelowOne(f: real, q: real)
    requires 0.0 <= f < q
    ensures 0.0 <= f / q < 1.0
  {
    assert f / q * q == f;
  }

  /** `analizarTextoLocal`: `None` plays the part of the source's `null`. */
  function ParseLocal(s: string): Option<Expense> {
    if |s| == 0 then None
    else
      match FindSplit(s, 1)
      case None => None
      case Some((k, p)) =>
        var (amount, e) := ReadAmount(s, p);
        var description := Trim(s[..k]);
        Some(Expense(description, amount, Classify(description)))
  }

  /** The local parse succeeds exactly when the pattern matches; then the
      description is the trimmed text before the shortest split, the amount
      is the greedy digit run after it, and the category is the
      description's. */
  lemma ParseLocalMatchesPattern(s: string)
    ensures ParseLocal(s).None? <==> forall k :: !ValidSplit(s, k)
    ensures ParseLocal(s).Some? ==>
              exists k, p, e :: ShortestSplit(s, k) && TailShape(s, k, p)
                                && GreedyAmount(s, p, ParseLocal(s).value.amount, e)
                                && ParseLocal(s).value.description == Trim(s[..k])
    ensures ParseLocal(s).Some? ==> ParseLocal(s).value.category == Classify(ParseLocal(s).value.description)
  {
    if |s| > 0 {
      assert s[..0] == [];
      FindSplitShortest(s, 1);
    }
  }

  // ---------------------------------------------------------------------
  // The match is unique, and it fixes the result

  /** For a given split the tail places the digit at one position only. */
  lemma TailUnique(s: string, k: nat, p1: int, p2: int)
    requires TailShape(s, k, p1) && TailShape(s, k, p2)
    ensures p1 == p2
  {
    DigitStartIsTail(s, k);
  }

  lemma ShortestUnique(s: string, k1: int, k2: int)
    requires ShortestSplit(s, k1) && ShortestSplit(s, k2)
    ensures k1 == k2
  {
  }

  /** The greedy amount from a given digit is determined by the text. */
  lemma GreedyAmountUnique(s: string, p: int, a1: Amount, e1: int, a2: Amount, e2: int)
    requires GreedyAmount(s, p, a1, e1) && GreedyAmount(s, p, a2, e2)
    ensures a1 == a2 && e1 == e2
  {
    // Each digit run stops at the first non-digit, so a shorter run would
    // end on a digit of the longer one.
    GreedyAmountDigits(s, p, a1, e1);
    GreedyAmountDigits(s, p, a2, e2);
    var w := p + |a1.whole|;
    assert w == p + |a2.whole|;
    assert a1.whole == s[p..w] == a2.whole;
    assert (a1.fraction == []) == (a2.fraction == []);
    assert e1 == e2;
    if a1.fraction != [] {
      assert a1.fraction == s[w + 1..e1] == a2.fraction;
    }
  }

  /** The characters a greedy amount covers: digits up to the dot, and
      digits after it. */
  lemma GreedyAmountDigits(s: string, p: int, a: Amount, e: int)
    requires GreedyAmount(s, p, a, e)
    ensures forall j :: p <= j < p + |a.whole| ==> IsDigit(s[j])
    ensures a.fraction != [] ==> forall j :: p + |a.whole| < j < e ==> IsDigit(s[j])
  {
    var w := p + |a.whole|;
    forall j | p <= j < w
      ensures IsDigit(s[j])
    {
      assert s[j] == s[p..w][j - p] == a.whole[j - p];
    }
    if a.fraction != [] {
      forall j | w < j < e
        ensures IsDigit(s[j])
      {
        assert s[j] == s[w + 1..e][j - w - 1] == a.fraction[j - w - 1];
      }
    }
  }

  /** The converse of `ParseLocal`'s contract: once the shortest split, its
      tail and the greedy amount are known, the result is fixed. */
  lemma ParseLocalExact(s: string, k: int, p: int, a: Amount, e: int)
    requires ShortestSplit(s, k) && TailShape(s, k, p) && GreedyAmount(s, p, a, e)
    ensures ParseLocal(s) == Some(Expense(Trim(s[..k]), a, Classify(Trim(s[..k]))))
  {
    ParseLocalMatchesPattern(s);
    var r := ParseLocal(s);
    var k', p', e' :| ShortestSplit(s, k') && TailShape(s, k', p')
                      && GreedyAmount(s, p', r.value.amount, e')
                      && r.value.description == Trim(s[..k']);
    ShortestUnique(s, k, k');
    TailUnique(s, k, p, p');
    GreedyAmountUnique(s, p, a, e, r.value.amount, e');
  }

  /** A tail found in a prefix of the text is a tail of the whole text, and
      a tail whose digit lies inside the prefix is a tail of the prefix. */
  lemma TailInPrefix(s: string, n: nat, k: int, p: int)
    requires n <= |s|
    ensures TailShape(s[..n], k, p) ==> TailShape(s, k, p)
    ensures p < n && TailShape(s, k, p) ==> TailShape(s[..n], k, p)
  {
    if 0 <= k < p < n {
      assert s[..n][k..p] == s[k..p];
      assert s[..n][k..p - 1] == s[k..p - 1];
    }
  }

  /** Anything after the amount is ignored: cutting the text at the end of
      the match leaves the result unchanged. */
  lemma ParseIgnoresTrailingText(s: string, k: int, p: int, a: Amount, e: int)
    requires ShortestSplit(s, k) && TailShape(s, k, p) && GreedyAmount(s, p, a, e)
    ensures ParseLocal(s[..e]) == ParseLocal(s)
  {
    var t := s[..e];
    TailInPrefix(s, e, k, p);
    assert t[..k] == s[..k];
    forall k' | 1 <= k' < k
      ensures !ValidSplit(t, k')
    {
      if ValidSplit(t, k') {
        var p' :| TailShape(t, k', p');
        TailInPrefix(s, e, k', p');
        assert t[..k'] == s[..k'];
        assert ValidSplit(s, k');
      }
    }
    assert ShortestSplit(t, k);
    var w := p + |a.whole|;
    assert t[p..w] == s[p..w];
    if a.fraction != [] {
      assert t[w + 1..e] == s[w + 1..e];
    }
    assert GreedyAmount(t, p, a, e);
    ParseLocalExact(t, k, p, a, e);
    ParseLocalExact(s, k, p, a, e);
  }

  /** Every amount the local parser returns is well formed, so its value is
      defined and never negative. */
  lemma ParseLocalAmountNonNegative(s: string)
    ensures ParseLocal(s).Some? ==> WellFormed(ParseLocal(s).value.amount)
                                    && Value(ParseLocal(s).value.amount) >= 0.0
  {
    ParseLocalMatchesPattern(s);
    if ParseLocal(s).Some? {
      ValueBounds(ParseLocal(s).value.amount);
    }
  }

  /** A text without any digit never matches. */
  lemma NoDigitNoParse(s: string)
    requires forall i :: 0 <= i < |s| ==> !IsDigit(s[i])
    ensures ParseLocal(s) == None
  {
    ParseLocalMatchesPattern(s);
  }

  // ---------------------------------------------------------------------
  // Worked examples

  const PanText := "Pan 2 unidades 10"

  lemma PanSplit()
    ensures FindSplit(PanText, 1) == Some((3, 4))
  {
    assert DigitStart(PanText, 1) == None && DigitStart(PanText, 2) == None;
    assert DigitStart(PanText, 3) == Some(4);
  }

  /** The description stops at the first number, and text after the amount
      is ignored. */
  lemma PanExample()
    ensures ParseLocal(PanText) == Some(Expense("Pan", Amount("2", ""), Alimentacion))
  {
    PanSplit();
    PanAmount();
    PanDescription();
    PanIsFood();
  }

  lemma PanAmount()
    ensures ReadAmount(PanText, 4) == (Amount("2", ""), 5)
  {
    assert SkipDigits(PanText, 4) == 5 && PanText[4..5] == "2";
  }

  lemma PanDescription()
    ensures Trim(PanText[..3]) == "Pan"
  {
    assert PanText[..3] == "Pan";
  }

  lemma PanIsFood()
    ensures Classify("Pan") == Alimentacion
  {
    assert OccursAt(ToLower("Pan"), "pan", 0) && FoodWords[7] == "pan";
  }

  const TaxiText := "Taxi Q12.50"

  lemma TaxiSplit()
    ensures FindSplit(TaxiText, 1) == Some((4, 6))
  {
    assert DigitStart(TaxiText, 1) == None && DigitStart(TaxiText, 2) == None;
    assert DigitStart(TaxiText, 3) == None && DigitStart(TaxiText, 4) == Some(6);
  }

  lemma TaxiAmount()
    ensures ReadAmount(TaxiText, 6) == (Amount("12", "50"), 11)
  {
    assert SkipDigits(TaxiText, 6) == 8 && TaxiText[6..8] == "12";
    assert SkipDigits(TaxiText, 9) == 11 && TaxiText[9..11] == "50";
  }

  /** The currency mark `Q` is skipped and the decimal part is kept. */
  lemma TaxiExample()
    ensures ParseLocal(TaxiText) == Some(Expense("Taxi", Amount("12", "50"), Classify("Taxi")))
  {
    TaxiSplit();
    TaxiAmount();
    TaxiDescription();
  }

  lemma TaxiDescription()
    ensures Trim(TaxiText[..4]) == "Taxi"
  {
    assert TaxiText[..4] == "Taxi";
  }

  const HeladoText := "Helado 12."

  lemma HeladoSplit()
    ensures FindSplit(HeladoText, 1) == Some((6, 7))
  {
    assert DigitStart(HeladoText, 1) == None && DigitStart(HeladoText, 2) == None;
    assert DigitStart(HeladoText, 3) == None && DigitStart(HeladoText, 4) == None;
    assert DigitStart(HeladoText, 5) == None && DigitStart(HeladoText, 6) == Some(7);
  }

  /** A dot with no digit after it is not part of the amount. */
  lemma HeladoExample()
    ensures ParseLocal(HeladoText) == Some(Expense("Helado", Amount("12", ""), Alimentacion))
  {
    HeladoSplit();
    HeladoAmount();
    HeladoDescription();
    HeladoIsFood();
  }

  lemma HeladoAmount()
    ensures ReadAmount(HeladoText, 7) == (Amount("12", ""), 9)
  {
    assert SkipDigits(HeladoText, 7) == 9 && HeladoText[7..9] == "12";
  }

  lemma HeladoDescription()
    ensures Trim(HeladoText[..6]) == "Helado"
  {
    assert HeladoText[..6] == "Helado";
  }

  lemma HeladoIsFood()
    ensures Classify("Helado") == Alimentacion
  {
    HeladoLower();
    assert OccursAt("helado", FoodWords[5], 0);
    IncludesOccurs("helado", FoodWords[5]);
    assert Keywords(Ranked[0]) == FoodWords;
  }

  lemma HeladoLower()
    ensures ToLower("Helado") == "helado"
  {
  }

  const BlankText := "  5"

  /** The description may be empty: the lazy group takes one blank, the
      tail takes the other, and `trim()` leaves nothing. */
  lemma BlankDescriptionExample()
    ensures ParseLocal(BlankText) == Some(Expense("", Amount("5", ""), Classify("")))
  {
    assert DigitStart(BlankText, 1) == Some(2);
    assert SkipDigits(BlankText, 2) == 3 && BlankText[2..3] == "5";
    assert BlankText[..1] == " ";
    assert Trim(" ") == "";
  }

  const ZeroText := "Agua 0"

  lemma ZeroSplit()
    ensures FindSplit(ZeroText, 1) == Some((4, 5))
  {
    assert DigitStart(ZeroText, 1) == None && DigitStart(ZeroText, 2) == None;
    assert DigitStart(ZeroText, 3) == None && DigitStart(ZeroText, 4) == Some(5);
  }

  lemma ZeroAmount()
    ensures ReadAmount(ZeroText, 5) == (Amount("0", ""), 6)
    ensures Value(Amount("0", "")) == 0.0
  {
    assert SkipDigits(ZeroText, 5) == 6 && ZeroText[5..6] == "0";
  }

  /** A zero amount is accepted. */
  lemma ZeroAmountExample()
    ensures ParseLocal(ZeroText) == Some(Expense("Agua", Amount("0", ""), Classify("Agua")))
  {
    ZeroSplit();
    ZeroAmount();
    ZeroDescription();
  }

  lemma ZeroDescription()
    ensures Trim(ZeroText[..4]) == "Agua"
  {
    assert ZeroText[..4] == "Agua";
  }

  /** A message with no number goes unmatched. */
  lemma NoAmountExample()
    ensures ParseLocal("almorcé con amigos") == None
  {
    NoDigitNoParse("almorcé con amigos");
  }

  const GimnasioText := "Gimnasio 250"

  lemma GimnasioSplit()
    ensures FindSplit(GimnasioText, 1) == Some((8, 9))
  {
    GimnasioSplitLate();
    assert DigitStart(GimnasioText, 1) == None && DigitStart(GimnasioText, 2) == None;
    assert DigitStart(GimnasioText, 3) == None && DigitStart(GimnasioText, 4) == None;
  }

  lemma GimnasioSplitLate()
    ensures FindSplit(GimnasioText, 5) == Some((8, 9))
  {
    assert DigitStart(GimnasioText, 5) == None && DigitStart(GimnasioText, 6) == None;
    assert DigitStart(GimnasioText, 7) == None && DigitStart(GimnasioText, 8) == Some(9);
  }

  lemma GimnasioAmount()
    ensures ReadAmount(GimnasioText, 9) == (Amount("250", ""), 12)
    ensures Value(Amount("250", "")) == 250.0
  {
    assert SkipDigits(GimnasioText, 9) == 12 && GimnasioText[9..12] == "250";
    assert DigitsValue("250") == 250 by {
      assert "250"[..2] == "25" && "25"[..1] == "2" && "2"[..0] == "";
    }
  }

  lemma GimnasioDescription()
    ensures Trim(GimnasioText[..8]) == "Gimnasio"
  {
    assert GimnasioText[..8] == "Gimnasio";
  }

  /** The message of the bot's own prompt example is understood locally as
      a health expense of 250. */
  lemma GimnasioExample()
    ensures ParseLocal(GimnasioText) == Some(Expense("Gimnasio", Amount("250", ""), Salud))
  {
    GimnasioSplit();
    GimnasioAmount();
    GimnasioDescription();
    GimnasioIsHealth();
  }
}

=== FILE: remote_retry.dfy ===
/** The remote tier of index.js (`analizarTexto`): up to `intentos`
    requests to the chat-completion service, a fixed pause and a retry after
    each rate-limit reply except on the last attempt, and an immediate
    throw on any other failure.

    The service is a parameter: `respond(i)` is what attempt `i` gets back,
    and `parse` stands for `JSON.parse` of the reply's content (`None` when
    it throws). The prompt built from the text only shapes `respond`. */
module RemoteRetry {
  import opened Wrappers

  /** What one request ends with: a reply whose content is read, an HTTP
      error status, or an error that carries no response at all. */
  datatype Outcome = Ok(content: string) | HttpStatus(code: int) | OtherError

  /** The error the function rethrows. */
  datatype Failure = StatusError(code: int) | TransportError | MalformedReply(content: string)

  /** How `analizarTexto` settles: it returns a parsed value, throws, or
      falls off the end of its loop and returns `undefined`. */
  datatype Result<T> = Parsed(value: T) | Thrown(failure: Failure) | Undefined

  /** The observable steps: request number `attempt`, or a pause. */
  datatype Event = Request(attempt: nat) | Delay(ms: nat)

  datatype Run<T> = Run(result: Result<T>, trace: seq<Event>)

  /** The status that allows a retry (HTTP 429 Too Many Requests). */
  const RateLimited := 429
  /** The pause before a retry, in milliseconds. */
  const RetryDelayMs := 3000
  /** The default of the `intentos` parameter, which the handler relies on. */
  const DefaultAttempts := 3

  /** How an attempt that is not retried ends: the parsed content, or the
      error it throws. */
  function Settle<T>(o: Outcome, parse: string -> Option<T>): (r: Result<T>)
    ensures r.Parsed? <==> o.Ok? && parse(o.content).Some?
    ensures r.Parsed? ==> r.value == parse(o.content).value
    ensures !r.Undefined?
  {
    match o
    case Ok(content) =>
      (match parse(content)
       case Some(v) => Parsed(v)
       case None => Thrown(MalformedReply(content)))
    case HttpStatus(code) => Thrown(StatusError(code))
    case OtherError => Thrown(TransportError)
  }

  /** The loop `for (let intento = ...; intento <= intentos; intento++)`
      from attempt `intento` on. */
  function Attempts<T>(intentos: int, intento: nat, respond: nat -> Outcome,
                       parse: string -> Option<T>): Run<T>
    requires 1 <= intento
    decreases intentos - intento
  {
    if intento > intentos then Run(Undefined, [])
    else
      var here := [Request(intento)];
      match respond(intento)
      case HttpStatus(code) =>
        if code == RateLimited && intento < intentos then
          var rest := Attempts(intentos, intento + 1, respond, parse);
          Run(rest.result, here + [Delay(RetryDelayMs)] + rest.trace)
        else
          Run(Thrown(StatusError(code)), here)
      case _ => Run(Settle(respond(intento), parse), here)
  }

  /** `analizarTexto(texto, intentos)`. */
  function AnalyzeText<T>(intentos: int, respond: nat -> Outcome, parse: string -> Option<T>): Run<T> {
    Attempts(intentos, 1, respond, parse)
  }

  // ---------------------------------------------------------------------
  // The reference: where the loop stops and what it has done by then

  /** Attempt `n` is the one that ends the loop: every earlier attempt was
      rate-limited, and `n` was not, or `n` is the last attempt allowed. */
  ghost predicate StopsAt(respond: nat -> Outcome, intentos: int, n: int) {
    && 1 <= n <= intentos
    && (forall j :: 1 <= j < n ==> respond(j) == HttpStatus(RateLimited))
    && (n == intentos || respond(n) != HttpStatus(RateLimited))
  }

  /** Requests `i`, ..., `n` with a pause between each two. */
  function ScheduleFrom(i: nat, n: nat): (r: seq<Event>)
    requires i <= n
    ensures |r| == 2 * (n - i) + 1
    decreases n - i
  {
    if i == n then [Request(n)]
    else [Request(i), Delay(RetryDelayMs)] + ScheduleFrom(i + 1, n)
  }

  /** The trace of a run that stops at attempt `n`. */
  function Schedule(n: nat): seq<Event>
    requires 1 <= n
  {
    ScheduleFrom(1, n)
  }

  /** The schedule alternates: even positions are the requests in order,
      odd positions are pauses of the fixed length. */
  lemma {:induction false} ScheduleFromShape(i: nat, n: nat)
    requires i <= n
    ensures forall m :: 0 <= m < |ScheduleFrom(i, n)| && m % 2 == 0 ==>
              ScheduleFrom(i, n)[m] == Request(i + m / 2)
    ensures forall m :: 0 <= m < |ScheduleFrom(i, n)| && m % 2 == 1 ==>
              ScheduleFrom(i, n)[m] == Delay(RetryDelayMs)
    decreases n - i
  {
    if i < n {
      ScheduleFromShape(i + 1, n);
      var t := ScheduleFrom(i + 1, n);
      assert ScheduleFrom(i, n) == [Request(i), Delay(RetryDelayMs)] + t;
      forall m | 2 <= m < |ScheduleFrom(i, n)|
        ensures ScheduleFrom(i, n)[m] == t[m - 2]
      {
      }
    }
  }

  /** From attempt `i`, a loop that stops at `n` returns the settled outcome
      of attempt `n` after requests `i`, ..., `n`. */
  lemma {:induction false} AttemptsStopAt<T>(intentos: int, i: nat, respond: nat -> Outcome,
                                             parse: string -> Option<T>, n: nat)
    requires 1 <= i <= n <= intentos
    requires forall j :: i <= j < n ==> respond(j) == HttpStatus(RateLimited)
    requires n == intentos || respond(n) != HttpStatus(RateLimited)
    ensures Attempts(intentos, i, respond, parse) == Run(Settle(respond(n), parse), ScheduleFrom(i, n))
    decreases n - i
  {
    if i < n {
      assert respond(i) == HttpStatus(RateLimited);
      AttemptsStopAt(intentos, i + 1, respond, parse, n);
    }
  }

  /** The closed form of the loop: when it stops at attempt `n`, the result
      is attempt `n`'s outcome and the trace is `n` requests with a pause
      between each two. */
  lemma RetryStopsAt<T>(intentos: int, respond: nat -> Outcome, parse: string -> Option<T>, n: nat)
    requires StopsAt(respond, intentos, n)
    ensures AnalyzeText(intentos, respond, parse) == Run(Settle(respond(n), parse), Schedule(n))
  {
    AttemptsStopAt(intentos, 1, respond, parse, n);
  }

  /** Looks for the attempt that ends the loop, from attempt `i` on. */
  lemma FindStop(respond: nat -> Outcome, intentos: int, i: nat) returns (n: nat)
    requires 1 <= i <= intentos
    requires forall j :: 1 <= j < i ==> respond(j) == HttpStatus(RateLimited)
    ensures StopsAt(respond, intentos, n)
    decreases intentos - i
  {
    if i == intentos || respond(i) != HttpStatus(RateLimited) {
      n := i;
    } else {
      n := FindStop(respond, intentos, i + 1);
    }
  }

  /** With at least one attempt allowed, some attempt ends the loop, and
      the run is the closed form for it. */
  lemma AnalyzeTextSettles<T>(intentos: int, respond: nat -> Outcome, parse: string -> Option<T>)
    requires 1 <= intentos
    ensures exists n :: StopsAt(respond, intentos, n)
                        && AnalyzeText(intentos, respond, parse) == Run(Settle(respond(n), parse), Schedule(n))
  {
    var n := FindStop(respond, intentos, 1);
    RetryStopsAt(intentos, respond, parse, n);
  }

  // ---------------------------------------------------------------------
  // Consequences

  /** `undefined` comes back exactly when no attempt is allowed, and then no
      request is made. */
  lemma UndefinedIffNoAttempts<T>(intentos: int, respond: nat -> Outcome, parse: string -> Option<T>)
    ensures AnalyzeText(intentos, respond, parse).result.Undefined? <==> intentos < 1
    ensures intentos < 1 ==> AnalyzeText(intentos, respond, parse).trace == []
  {
    if 1 <= intentos {
      AnalyzeTextSettles(intentos, respond, parse);
    }
  }

  function RequestCount(t: seq<Event>): nat {
    if t == [] then 0 else (if t[0].Request? then 1 else 0) + RequestCount(t[1..])
  }

  function DelayCount(t: seq<Event>): nat {
    if t == [] then 0 else (if t[0].Delay? then 1 else 0) + DelayCount(t[1..])
  }

  /** A schedule from `i` to `n` has one request per attempt and one pause
      fewer. */
  lemma {:induction false} ScheduleFromCounts(i: nat, n: nat)
    requires i <= n
    ensures RequestCount(ScheduleFrom(i, n)) == n - i + 1
    ensures DelayCount(ScheduleFrom(i, n)) == n - i
    decreases n - i
  {
    if i < n {
      ScheduleFromCounts(i + 1, n);
      var t := ScheduleFrom(i, n);
      assert t[1..][1..] == ScheduleFrom(i + 1, n);
    }
  }

  /** The loop never makes more than `intentos` requests, it pauses once
      between each two, and every pause is the fixed delay. */
  lemma RequestsBounded<T>(intentos: int, respond: nat -> Outcome, parse: string -> Option<T>)
    ensures RequestCount(AnalyzeText(intentos, respond, parse).trace) <= if intentos < 0 then 0 else intentos
    ensures AnalyzeText(intentos, respond, parse).trace != [] ==>
              DelayCount(AnalyzeText(intentos, respond, parse).trace)
              == RequestCount(AnalyzeText(intentos, respond, parse).trace) - 1
    ensures forall e :: e in AnalyzeText(intentos, respond, parse).trace && e.Delay? ==> e.ms == RetryDelayMs
  {
    if 1 <= intentos {
      var n := FindStop(respond, intentos, 1);
      RetryStopsAt(intentos, respond, parse, n);
      ScheduleFromCounts(1, n);
      ScheduleFromShape(1, n);
    }
  }

  /** A first reply other than a rate limit ends the loop at once: one
      request, no pause, and the reply is settled: its parsed content is
      returned, or its error is thrown. */
  lemma FirstReplySettles<T>(intentos: int, respond: nat -> Outcome, parse: string -> Option<T>)
    requires 1 <= intentos
    requires respond(1) != HttpStatus(RateLimited)
    ensures AnalyzeText(intentos, respond, parse) == Run(Settle(respond(1), parse), [Request(1)])
  {
    RetryStopsAt(intentos, respond, parse, 1);
  }

  /** A rate limit on the last attempt is thrown rather than retried. */
  lemma RateLimitOnLastAttemptThrows<T>(intentos: int, respond: nat -> Outcome, parse: string -> Option<T>)
    requires 1 <= intentos
    requires forall j :: 1 <= j <= intentos ==> respond(j) == HttpStatus(RateLimited)
    ensures AnalyzeText(intentos, respond, parse).result == Thrown(StatusError(RateLimited))
  {
    RetryStopsAt(intentos, respond, parse, intentos);
  }

  // ---------------------------------------------------------------------
  // Worked examples with the default of three attempts

  /** Rate-limited twice, then a readable reply. */
  function TwoLimitsThenReply(i: nat): Outcome {
    if i <= 2 then HttpStatus(RateLimited) else Ok("{}")
  }

  function ReadAll(content: string): Option<string> {
    Some(content)
  }

  function ReadNothing(content: string): Option<string> {
    None
  }

  /** Two rate limits and a reply: the reply is returned after three
      requests and two pauses. */
  lemma RetriedTwiceExample()
    ensures AnalyzeText(DefaultAttempts, TwoLimitsThenReply, ReadAll)
            == Run(Parsed("{}"), [Request(1), Delay(3000), Request(2), Delay(3000), Request(3)])
  {
    RetryStopsAt(DefaultAttempts, TwoLimitsThenReply, ReadAll, 3);
  }

  /** The same replies with only two attempts: the second rate limit is
      thrown. */
  lemma OutOfAttemptsExample()
    ensures AnalyzeText(2, TwoLimitsThenReply, ReadAll)
            == Run(Thrown(StatusError(429)), [Request(1), Delay(3000), Request(2)])
  {
    RetryStopsAt(2, TwoLimitsThenReply, ReadAll, 2);
  }

  /** A reply whose content does not parse is thrown at once, without a
      retry. */
  lemma MalformedReplyExample()
    ensures AnalyzeText(DefaultAttempts, (i: nat) => Ok("no es JSON"), ReadNothing)
            == Run(Thrown(MalformedReply("no es JSON")), [Request(1)])
  {
    FirstReplySettles(DefaultAttempts, (i: nat) => Ok("no es JSON"), ReadNothing);
  }
}

=== FILE: sheet.dfy ===
/** The two readers of the expense sheet in index.js: the running total of
    `/total` (`calcularTotalGastos`) and the row selection of `/resumen`
    (`obtenerResumenUltimosGastos`).

    The sheet is the value of range `A2:D` as the client library returns it:
    `None` when the response carries no `values`, otherwise the rows, each a
    sequence of cells (fecha, descripcion, valor, categoria), possibly short.
    `parseNumber` stands for JavaScript's `parseFloat` of a cell, `None`
    playing the part of `NaN`. */
module Sheet {
  import opened Wrappers

  type Row = seq<string>

  /** The column that holds the amount (`fila[2]`). */
  const AmountColumn := 2
  /** The default of `cantidad` in the summary. */
  const DefaultSummaryRows := 5

  /** `respuesta.data.values || []`. */
  function RowsOf(values: Option<seq<Row>>): (rows: seq<Row>)
    ensures values.None? ==> rows == []
    ensures values.Some? ==> rows == values.value
  {
    values.GetOr([])
  }

  /** The amount of a row, when its third cell exists and is a number. */
  function CellAmount(row: Row, parseNumber: string -> Option<real>): Option<real> {
    if AmountColumn < |row| then parseNumber(row[AmountColumn]) else None
  }

  /** Reference definition of the total: the sum of the amounts of the rows
      that have one. */
  function SumAmounts(rows: seq<Row>, parseNumber: string -> Option<real>): real {
    if rows == [] then 0.0
    else SumAmounts(rows[..|rows| - 1], parseNumber) + CellAmount(rows[|rows| - 1], parseNumber).GetOr(0.0)
  }

  /** `calcularTotalGastos` once the rows are read: the loop over the rows
      that adds every amount that parses. */
  method CalculateTotal(rows: seq<Row>, parseNumber: string -> Option<real>) returns (total: real)
    ensures total == SumAmounts(rows, parseNumber)
  {
    total := 0.0;
    var i := 0;
    while i < |rows|
      invariant 0 <= i <= |rows|
      invariant total == SumAmounts(rows[..i], parseNumber)
    {
      match CellAmount(rows[i], parseNumber) {
        case Some(v) => total := total + v;
        case None =>
      }
      assert rows[..i + 1][..i] == rows[..i];
      i := i + 1;
    }
    assert rows[..i] == rows;
  }

  /** The total of two blocks of rows is the sum of their totals. */
  lemma {:induction false} SumAmountsAppend(a: seq<Row>, b: seq<Row>, parseNumber: string -> Option<real>)
    ensures SumAmounts(a + b, parseNumber) == SumAmounts(a, parseNumber) + SumAmounts(b, parseNumber)
    decreases |b|
  {
    if b != [] {
      var b' := b[..|b| - 1];
      assert (a + b)[..|a + b| - 1] == a + b';
      assert (a + b)[|a + b| - 1] == b[|b| - 1];
      SumAmountsAppend(a, b', parseNumber);
    } else {
      assert a + b == a;
    }
  }

  /** A row without a readable amount (short, or not a number) adds nothing. */
  lemma SkipsRowWithoutAmount(rows: seq<Row>, row: Row, parseNumber: string -> Option<real>)
    requires CellAmount(row, parseNumber).None?
    ensures SumAmounts(rows + [row], parseNumber) == SumAmounts(rows, parseNumber)
  {
    assert (rows + [row])[..|rows|] == rows;
  }

  /** A row with an amount adds exactly that amount. */
  lemma AddsRowAmount(rows: seq<Row>, row: Row, parseNumber: string -> Option<real>, v: real)
    requires CellAmount(row, parseNumber) == Some(v)
    ensures SumAmounts(rows + [row], parseNumber) == SumAmounts(rows, parseNumber) + v
  {
    assert (rows + [row])[..|rows|] == rows;
  }

  /** When every amount is non-negative, so is the total. */
  lemma {:induction false} TotalNonNegative(rows: seq<Row>, parseNumber: string -> Option<real>)
    requires forall i :: 0 <= i < |rows| ==> CellAmount(rows[i], parseNumber).GetOr(0.0) >= 0.0
    ensures SumAmounts(rows, parseNumber) >= 0.0
  {
    if rows != [] {
      TotalNonNegative(rows[..|rows| - 1], parseNumber);
    }
  }

  /** A sheet without values has a total of zero. */
  lemma EmptySheetTotal(parseNumber: string -> Option<real>)
    ensures SumAmounts(RowsOf(None), parseNumber) == 0.0
  {
  }

  // ---------------------------------------------------------------------
  // The summary rows

  /** `Array.prototype.slice(start)`: a negative start counts from the end
      and is clamped at 0; a start past the end gives nothing. */
  function SliceFrom<T>(a: seq<T>, start: int): (r: seq<T>)
    ensures start < 0 && |a| + start >= 0 ==> r == a[|a| + start..]
    ensures start < 0 && |a| + start < 0 ==> r == a
    ensures 0 <= start <= |a| ==> r == a[start..]
    ensures |a| < start ==> r == []
  {
    var from := if start < 0 then (if |a| + start < 0 then 0 else |a| + start)
                else (if start < |a| then start else |a|);
    a[from..]
  }

  /** `Array.prototype.reverse`. */
  function Reverse<T>(a: seq<T>): (r: seq<T>)
    ensures |r| == |a|
    ensures forall i :: 0 <= i < |a| ==> r[i] == a[|a| - 1 - i]
  {
    if a == [] then [] else [a[|a| - 1]] + Reverse(a[..|a| - 1])
  }

  function Min(a: int, b: int): int {
    if a <= b then a else b
  }

  /** `datos.slice(-cantidad).reverse()`: the rows the summary lists, newest
      first. A positive count keeps the last `min(cantidad, n)` rows;
      `slice(-0)` is `slice(0)`, so a count of zero keeps every row; a
      negative count drops that many rows from the start instead. */
  function LastRows(rows: seq<Row>, cantidad: int): (r: seq<Row>)
    ensures cantidad > 0 ==> |r| == Min(cantidad, |rows|)
    ensures cantidad == 0 ==> |r| == |rows|
    ensures cantidad < 0 ==> |r| == if -cantidad < |rows| then |rows| + cantidad else 0
    ensures forall i :: 0 <= i < |r| ==> r[i] == rows[|rows| - 1 - i]
  {
    Reverse(SliceFrom(rows, -cantidad))
  }

  /** With the default count of five and seven rows, the summary lists rows
      7, 6, 5, 4 and 3. */
  lemma SummaryExample()
    ensures LastRows([["1"], ["2"], ["3"], ["4"], ["5"], ["6"], ["7"]], DefaultSummaryRows)
            == [["7"], ["6"], ["5"], ["4"], ["3"]]
  {
  }
}

=== FILE: text.dfy ===
/** Character classes and string helpers that the JavaScript source takes
    from the language: the `\s`, `\d` and `.` classes of its regular
    expressions, `String.prototype.trim`, `toLowerCase` and `includes`.
    Strings are sequences of characters. */
module Text {

  /** JavaScript's WhiteSpace and LineTerminator characters: the set matched
      by `\s` and removed by `trim()` (section 22.2.2.9 and 22.1.3.32 of
      ECMA-262 agree on it). */
  predicate IsSpace(c: char) {
    || c == '\t' || c == '\n' || c == '\U{B}' || c == '\U{C}' || c == '\r'
    || c == ' ' || c == '\U{A0}' || c == '\U{1680}'
    || ('\U{2000}' <= c <= '\U{200A}')
    || c == '\U{2028}' || c == '\U{2029}' || c == '\U{202F}' || c == '\U{205F}'
    || c == '\U{3000}' || c == '\U{FEFF}'
  }

  /** The characters that `.` refuses to match when the `s` flag is absent. */
  predicate IsLineTerminator(c: char) {
    c == '\n' || c == '\r' || c == '\U{2028}' || c == '\U{2029}'
  }

  /** `\d`: the ASCII decimal digits only. */
  predicate IsDigit(c: char) {
    '0' <= c <= '9'
  }

  predicate AllSpace(s: string) {
    forall i :: 0 <= i < |s| ==> IsSpace(s[i])
  }

  predicate AllDigits(s: string) {
    forall i :: 0 <= i < |s| ==> IsDigit(s[i])
  }

  predicate NoLineTerminator(s: string) {
    forall i :: 0 <= i < |s| ==> !IsLineTerminator(s[i])
  }

  /** The end of the longest run of whitespace that starts at `i`: the
      greedy `\s+` (or `\s*`) of a regular expression. */
  function SkipSpaces(s: string, i: nat): (j: nat)
    requires i <= |s|
    ensures i <= j <= |s|
    ensures forall m :: i <= m < j ==> IsSpace(s[m])
    ensures j == |s| || !IsSpace(s[j])
    decreases |s| - i
  {
    if i == |s| || !IsSpace(s[i]) then i else SkipSpaces(s, i + 1)
  }

  /** The end of the longest run of digits that starts at `i`: the greedy `\d+`. */
  function SkipDigits(s: string, i: nat): (j: nat)
    requires i <= |s|
    ensures i <= j <= |s|
    ensures forall m :: i <= m < j ==> IsDigit(s[m])
    ensures j == |s| || !IsDigit(s[j])
    decreases |s| - i
  {
    if i == |s| || !IsDigit(s[i]) then i else SkipDigits(s, i + 1)
  }

  /** The start of the longest run of whitespace that ends at `j`, looking
      no further back than `lo`. */
  function SkipSpacesBack(s: string, lo: nat, j: nat): (i: nat)
    requires lo <= j <= |s|
    ensures lo <= i <= j
    ensures forall m :: i <= m < j ==> IsSpace(s[m])
    ensures i == lo || !IsSpace(s[i - 1])
    decreases j - lo
  {
    if j == lo || !IsSpace(s[j - 1]) then j else SkipSpacesBack(s, lo, j - 1)
  }

  /** `String.prototype.trim`: the slice of `s` left after removing
      whitespace from both ends. */
  function Trim(s: string): string {
    var i := SkipSpaces(s, 0);
    s[i..SkipSpacesBack(s, i, |s|)]
  }

  /** The trimmed text is a slice of `s` surrounded only by whitespace, and
      it neither starts nor ends with whitespace. */
  lemma TrimStrips(s: string)
    ensures exists i :: 0 <= i <= |s| - |Trim(s)| && Trim(s) == s[i..i + |Trim(s)|]
                        && AllSpace(s[..i]) && AllSpace(s[i + |Trim(s)|..])
    ensures Trim(s) == [] || (!IsSpace(Trim(s)[0]) && !IsSpace(Trim(s)[|Trim(s)| - 1]))
  {
    var i := SkipSpaces(s, 0);
    var j := SkipSpacesBack(s, i, |s|);
    assert Trim(s) == s[i..j];
    assert AllSpace(s[..i]) && AllSpace(s[j..]);
  }

  /** Trimming twice is trimming once. */
  lemma TrimIdempotent(s: string)
    ensures Trim(Trim(s)) == Trim(s)
  {
    TrimStrips(s);
    var t := Trim(s);
    if t != [] {
      assert SkipSpaces(t, 0) == 0;
      assert SkipSpacesBack(t, 0, |t|) == |t|;
    }
  }

  /** `toLowerCase` restricted to the ASCII letters and the Latin-1 capitals
      U+00C0..U+00DE (except the multiplication sign U+00D7), whose lower
      case is 32 code points higher; every other character is unchanged. */
  function LowerChar(c: char): char {
    if 'A' <= c <= 'Z' || ('\U{C0}' <= c <= '\U{DE}' && c != '\U{D7}') then
      (c as int + 32) as char
    else c
  }

  function ToLower(s: string): (r: string)
    ensures |r| == |s|
    ensures forall i :: 0 <= i < |s| ==> r[i] == LowerChar(s[i])
  {
    if s == [] then [] else [LowerChar(s[0])] + ToLower(s[1..])
  }

  lemma LowerCharIdempotent(c: char)
    ensures LowerChar(LowerChar(c)) == LowerChar(c)
  {
  }

  /** Lower-casing twice is lower-casing once. */
  lemma {:induction false} ToLowerIdempotent(s: string)
    ensures ToLower(ToLower(s)) == ToLower(s)
  {
    if s != [] {
      ToLowerIdempotent(s[1..]);
      LowerCharIdempotent(s[0]);
      assert ToLower(s)[1..] == ToLower(s[1..]);
    }
  }

  /** `word` occurs in `text` starting at index `i`. */
  predicate OccursAt(text: string, word: string, i: int) {
    0 <= i && i + |word| <= |text| && text[i..i + |word|] == word
  }

  /** Compares `word[k..]` with `text[i + k..]` character by character. */
  function AgreesFrom(text: string, word: string, i: nat, k: nat): bool
    requires i + |word| <= |text| && k <= |word|
    decreases |word| - k
  {
    k == |word| || (text[i + k] == word[k] && AgreesFrom(text, word, i, k + 1))
  }

  /** Searches for `word` at positions `i`, `i + 1`, ... of `text`. */
  function IncludesFrom(text: string, word: string, i: nat): bool
    decreases |text| - i
  {
    if i + |word| > |text| then false
    else AgreesFrom(text, word, i, 0) || IncludesFrom(text, word, i + 1)
  }

  /** `String.prototype.includes`: searches `text` for `word` from the start. */
  function Includes(text: string, word: string): bool {
    IncludesFrom(text, word, 0)
  }

  lemma {:induction false} AgreesFromIsSlice(text: string, word: string, i: nat, k: nat)
    requires i + |word| <= |text| && k <= |word|
    ensures AgreesFrom(text, word, i, k) <==> text[i + k..i + |word|] == word[k..]
    decreases |word| - k
  {
    if k < |word| {
      AgreesFromIsSlice(text, word, i, k + 1);
      assert text[i + k..i + |word|] == [text[i + k]] + text[i + k + 1..i + |word|];
      assert word[k..] == [word[k]] + word[k + 1..];
    }
  }

  lemma {:induction false} IncludesFromOccurs(text: string, word: string, i: nat)
    ensures IncludesFrom(text, word, i) <==> exists j :: i <= j && OccursAt(text, word, j)
    decreases |text| - i
  {
    if i + |word| <= |text| {
      AgreesFromIsSlice(text, word, i, 0);
      IncludesFromOccurs(text, word, i + 1);
      assert AgreesFrom(text, word, i, 0) <==> OccursAt(text, word, i);
    }
  }

  /** The search finds `word` exactly when it occurs somewhere in `text`. */
  lemma IncludesOccurs(text: string, word: string)
    ensures Includes(text, word) <==> exists j :: OccursAt(text, word, j)
  {
    IncludesFromOccurs(text, word, 0);
  }
}

=== FILE: wrappers.dfy ===
/** The optional-value datatype used wherever the source returns `null`,
    `undefined` or a value that may fail to parse. */
module Wrappers {

  datatype Option<+T> = None | Some(value: T) {

    /** Returns the value held in Some, or `default` when None (JavaScript's `x || default`). */
    function GetOr(default: T): T {
      match this
      case Some(v) => v
      case None => default
    }
  }
}
